=== FILE: README.md ===
# K-means land-cover clustering of stacked Sentinel-1/2 rasters: a Dafny model

The script `Kmeans_clustering.py` crops a Sentinel-2 and a Sentinel-1 cube to
a study area, stacks them into one (rows, columns, bands) raster, and runs
`run_Kmeans` on it. `run_Kmeans` flattens the raster into a pixel-by-band
sample matrix and draws training pixels with replacement. It reports a
silhouette score for each candidate cluster count 2, 4, ..., 32, then reads
the count the user types. With that count it fits, predicts every pixel,
reshapes the labels into an image, names the output GeoTIFF after the count
and the preprocessing applied, and updates the metadata the file is written
with.

The model covers the script's own bookkeeping around the clustering library:

- `NdArray`: numpy arrays that carry their shape, and the operations the
  script uses on them. `np.reshape` is row-major flattening followed by
  cutting into rows. Concatenation runs along the band axis. The transpose
  is the axis permutation (1, 2, 0).
- `Sampling`: `np.random.randint` and the row selection `X[idx, :]`.
- `Sweep`: Python's `range` and the loop over `range(2, 33, 2)`.
- `IntParse`: Python's `int()` applied to the typed cluster count.
- `Naming`: the output file name, built by successive string edits.
- `Metadata`: the metadata dictionary, a `Meta` object edited in place.
- `Kmeans`: band stacking, the script's set-up after cropping, and
  `run_Kmeans` itself. The script globals `rows`, `columns` and `meta` are
  explicit parameters here.
- `Results`: the uncaught `ValueError`s, modelled as `Err` values.
- `Arith`: small arithmetic facts that the index proofs use.

Some inputs become parameters:

- the random generator is `draw(i)`, its i-th raw value;
- the typed answer to `input()` is the string `entered`;
- K-means fitting and prediction, the silhouette score, PCA and brightness
  normalisation are function parameters. The model fixes what each is given
  and what is done with its result.

## Model

| member | source | states |
|---|---|---|
| `NdArray.Reshape` | Kmeans_clustering.py:98 | `np.reshape` to (n0, n1) succeeds exactly when the element count is n0·n1 and otherwise fails with numpy's error; the result has that shape, and reading it row by row gives back the original elements in order |
| `NdArray.RavelAt` | Kmeans_clustering.py:54 | the row-major order numpy reshapes in: element (i, j, k) of a cube is flat element (i·n1 + j)·n2 + k, and the cube holds n0·n1·n2 elements |
| `NdArray.ConcatChunks` | Kmeans_clustering.py:54 | cutting a flat sequence into equal rows and laying them end to end again gives back the sequence |
| `NdArray.ChunksConcat` | Kmeans_clustering.py:98 | laying equal rows end to end and cutting again gives back the rows: reshaping loses nothing |
| `NdArray.Concatenate` | Kmeans_clustering.py:240 | concatenation along axis 0 succeeds exactly when both cubes have the same rows and columns; the result has the sum of the band counts, with all bands of the first cube first and all bands of the second after them |
| `NdArray.Transpose` | Kmeans_clustering.py:245 | permuting the axes (1, 2, 0) turns a (bands, rows, columns) cube into (rows, columns, bands), and the entry at [r][c] is pixel (r, c)'s vector of band values |
| `NdArray.TransposeAt` | Kmeans_clustering.py:245 | after the transpose, element [r][c][b] is element [b][r][c] of the stacked cube |
| `NdArray.TransposeRoundTrip` | Kmeans_clustering.py:245 | applying the inverse permutation (2, 0, 1) gives back the original cube, so the transpose loses and invents nothing |
| `NdArray.PixelIndex` | Kmeans_clustering.py:54 | pixel (r, c) maps to flat row r·columns + c, which lies below rows·columns, and division and remainder by columns recover r and c |
| `NdArray.FlatIndex` | Kmeans_clustering.py:98 | every flat row below rows·columns is r·columns + c for one pixel (r, c) inside the image |
| `Sampling.SampleIndices` | Kmeans_clustering.py:68 | `randint(n, size=numSamples)` gives the empty array when no draws are asked for, whatever n is. Otherwise it fails when n is 0, then when numSamples is negative. It succeeds exactly in the remaining cases, with exactly numSamples indices, each in [0, n) |
| `Sampling.EveryIndexSequenceReachable` | Kmeans_clustering.py:68 | drawing is with replacement: every sequence of in-range indices, repeats included, comes from some generator |
| `Sampling.Gather` | Kmeans_clustering.py:69 | `X[idx, :]` has one row per index, and row i is row idx[i] of X |
| `Sweep.Range` | Kmeans_clustering.py:75 | `range(start, stop, step)` with a positive step, defined as the values start + i·step for i below ceil((stop − start)/step). Its contract: it is non-empty exactly when start < stop, its first value is start, each next value is the previous plus step, every value lies below stop, and one more step from the last value reaches stop |
| `Sweep.RangeUnfold` | Kmeans_clustering.py:75 | the range obeys Python's recurrence: empty once start ≥ stop, otherwise start followed by `range(start + step, stop, step)` |
| `Sweep.CandidatesAreEvenTwoToThirtyTwo` | Kmeans_clustering.py:75 | `range(2, 33, 2)` has exactly 16 values, the even numbers 2, 4, ..., 32, in increasing order |
| `Sweep.RunSweep` | Kmeans_clustering.py:77-82 | the sweep produces 16 report lines in order; line i holds count 2 + 2i and the silhouette score of a fit with that many clusters on the training samples |
| `IntParse.ParseInt` | Kmeans_clustering.py:92 | `int(bestCluster)`, None where `int()` raises. Its contract: a number comes only from text that is not blank once the skipped white space is removed and that then ends in a digit; a negative number only when it then starts with '-'. Which texts it accepts is stated by `IgnoresSurroundingSpace` and `AcceptsSignedGroups` |
| `IntParse.IgnoresSurroundingSpace` | Kmeans_clustering.py:92 | any run of the white space `int()` skips (tab to carriage return, space) before and after the entry leaves the result unchanged, success or failure: `int(" 8\n") == int("8")` |
| `IntParse.AcceptsSignedGroups` | Kmeans_clustering.py:92 | no sign, '+' or '-' followed by digits joined by single underscores, leading zeros included, parses to the value of the digits, negated after '-': "+8", "08" and "1_0" give 8, 8 and 10 |
| `IntParse.ParseDecimal` | Kmeans_clustering.py:92 | `int()` reads back every integer written in decimal, so every cluster count can be entered |
| `IntParse.RejectsForeignCharacter` | Kmeans_clustering.py:92 | text that holds any ASCII character other than a digit, a sign, an underscore or the white space `int()` skips (tab to carriage return, space) fails at `int()`; the separators 0x1C-0x1F count as foreign |
| `IntParse.RejectsBlank` | Kmeans_clustering.py:92 | an empty or all-white-space entry fails at `int()` |
| `Naming.DropLastFour` | Kmeans_clustering.py:103-105 | `output[:-4]` is the prefix of the name four characters shorter, or the empty string when the name is shorter than four characters |
| `Naming.DropExtension` | Kmeans_clustering.py:103 | when the name ends in ".tif", the slice `[:-4]` removes exactly that extension and nothing else |
| `Naming.OutputName` | Kmeans_clustering.py:101-105 | the name built by the successive edits is the prefix, the entry verbatim, "k", the suffixes of the applied steps with bnorm first, then ".tif" |
| `Naming.NameLayout` | Kmeans_clustering.py:101 | every output name starts with "Sentinel_40m_kmeans_", continues with the entered text verbatim and then "k", and ends with ".tif" |
| `Naming.SuffixOrder` | Kmeans_clustering.py:102-105 | with neither flag the name ends in "k.tif"; with bnorm only, "k_bnorm.tif"; with pca only, "k_pca.tif"; with both, "k_bnorm_pca.tif" |
| `Naming.NameDeterminesRun` | Kmeans_clustering.py:101-105 | two runs get the same file name only if the entered text and both flags are the same, so the script's four differently preprocessed runs never overwrite each other |
| `Metadata.Updated` | Kmeans_clustering.py:108 | `dict.update`: the patch's keys take the patch's values, every other key keeps its value, and no key is lost |
| `Metadata.LabelPatchIdempotent` | Kmeans_clustering.py:108 | repeating a run's label-entry update leaves the dictionary as the first update left it |
| `Metadata.Meta.Copy` | Kmeans_clustering.py:227 | `src.meta.copy()` gives a new dictionary with the source's entries |
| `Metadata.Meta.Update` | Kmeans_clustering.py:108 | updating in place makes the dictionary its old entries updated with the patch |
| `Metadata.Meta.ApplyCrop` | Kmeans_clustering.py:228-231 | after cropping, height and width come from the cropped image's shape, driver is "GTiff" and transform is the crop's; every other key is unchanged |
| `Kmeans.StackedBandVector` | Kmeans_clustering.py:240 | after concatenation, a pixel's band vector is its S2 bands followed by its S1 bands |
| `Kmeans.StackBands` | Kmeans_clustering.py:240-245 | stacking then transposing fails only on a shape mismatch. Otherwise the raster is (rows, columns, bands(S2) + bands(S1)), and its entry at pixel (r, c) is S2's bands there, then S1's |
| `Kmeans.SampleMatrix` | Kmeans_clustering.py:54 | the (rows·columns, bands) reshape succeeds exactly when rows·columns·bands equals the raster's size; the matrix has that shape |
| `Kmeans.FlattenRoundTrip` | Kmeans_clustering.py:54 | with the raster's own rows and columns, flat row r·columns + c of the sample matrix is the band vector of pixel (r, c) |
| `Kmeans.LabelImageAt` | Kmeans_clustering.py:98 | reshaping rows·columns predictions gives a rows × columns label image, and its entry at (r, c) is the prediction for flat row r·columns + c |
| `Kmeans.SampleRowIsStackedPixel` | Kmeans_clustering.py:240-245 | after stacking, transposing and flattening (line 54), sample row r·columns + c is pixel (r, c)'s S2 bands followed by its S1 bands |
| `Kmeans.PrepareStudyArea` | Kmeans_clustering.py:227-245 | the set-up copies the S2 metadata and applies the crop update, takes rows and columns from the cropped S2 shape, and stacks and transposes the two cubes |
| `Kmeans.Preprocess` | Kmeans_clustering.py:56-65 | for each of the four flag combinations, brightness normalisation is applied before PCA, each only when its flag is set; steps that keep one row per pixel keep the matrix one row per pixel |
| `Kmeans.RunKmeans` | Kmeans_clustering.py:54-108 | a run finishes exactly when the flatten fits, the draw is possible (rows·columns > 0 or no draws, and numSamples ≥ 0) and the entry parses. Otherwise it fails at the first step that cannot go on: BadReshape, EmptyRange, NegativeSize, then NotAnInteger. The metadata changes only when a run finishes, and then by exactly the label entries. A finished run's training indices are the generator's draws, `SampleIndices(rows·columns, numSamples, draw)`: numSamples of them, each below rows·columns. It samples those rows from the preprocessed matrix, which keeps one row per pixel. It sweeps the 16 counts. Its cluster count is the parse of the entry. Its rows·columns predictions reshaped to rows × columns are its labels. Its file name embeds the raw entry |

## Left out

- Image download through the imagery service client, and the instance id and bounding-box set-up (lines 130-210): network I/O through a foreign client.
- Reading the shapefile, cropping with `rasterio.mask.mask`, and writing the GeoTIFF (lines 111-112, 221-237): file I/O and library geometry. The cropped cubes and the crop transform are inputs of `Kmeans.PrepareStudyArea`. The written file is the label image and the name that `Kmeans.RunKmeans` returns.
- K-means fitting and prediction, PCA, the silhouette score and brightness normalisation (lines 57-65, 78-80, 92-95): library numerics and floating point. They are function parameters. Library errors such as more clusters than samples are not modelled. The silhouette score at line 94 is computed and never used, so it is left out.
- `np.random.randint`'s distribution: the generator is the parameter `draw`, reduced into range by a remainder. Only the bounds and the freedom to repeat are modelled.
- `input()` (line 89): the answer is the string parameter `entered`. Console printing and plotting (lines 30-39, 81-82, 157-198, 242, 252-264) are UI.
- `n_jobs` parallelism: concurrency inside the library.
- The four calls of `run_Kmeans` at lines 251-264 are not modelled as one sequence. `Naming.NameDeterminesRun` shows that their four outputs differ, and `Metadata.LabelPatchIdempotent` shows that the metadata after them equals the metadata after one run. The plot of `kmeans2` at line 252, before `kmeans2` is assigned, is not modelled.
- Sweep.Range: Python's `range` is modelled for positive steps only; the script uses only the step 2.
- IntParse.ParseDecimal: `int()` also accepts non-ASCII decimal digits and non-ASCII white space; the model accepts only ASCII digits and skips only the ASCII white space that `int()` skips (tab to carriage return, and space). The model also has no digit limit: CPython 3.11 and later, and the 3.7.14, 3.8.14, 3.9.14 and 3.10.7 releases, reject decimal text of more than 4300 digits by default, so there `ParseDecimal` holds only for integers of at most 4300 digits.
- IntParse.RejectsForeignCharacter: holds for `int()` only for ASCII text. A non-ASCII decimal digit such as "٣", or non-ASCII white space, fails in the model but is accepted by `int()`.
- IntParse.AcceptsSignedGroups: holds without a bound on the number of digits; where `int()` has the 4300-digit default limit described for `ParseDecimal`, it holds only for digit groups within that limit.
- Kmeans.RunKmeans: band values are reals, not 32- or 64-bit floats. Normalisation, PCA and prediction are assumed to keep one row per pixel, as the library does. The outcome when the library itself raises is not modelled.

=== FILE: arith.dfy ===
/** Facts of integer arithmetic that the index computations need and that
    the solver does not find by itself once products of variables appear. */
module Arith {

  lemma MulRegroup(i: nat, j: nat, k: nat, n1: nat, n2: nat)
    ensures (i * n1 + j) * n2 + k == i * (n1 * n2) + (j * n2 + k)
  {
  }

  /** n rows of width w are one row and n - 1 more. */
  lemma PeelRow(n: nat, w: nat)
    requires n > 0
    ensures n * w == w + (n - 1) * w && w <= n * w
  {
  }

  /** Position j of row i is position j of row i - 1 after skipping one row. */
  lemma ShiftRow(i: nat, w: nat, j: nat)
    requires i > 0
    ensures i * w + j == w + ((i - 1) * w + j)
  {
  }

  lemma MulAssociates(x: nat, y: nat, z: nat)
    ensures x * y * z == x * (y * z)
  {
  }

  lemma MulLeq(x: nat, y: nat, n: nat)
    requires x <= y
    ensures x * n <= y * n
  {
  }

  /** Euclidean division has one quotient and one remainder. */
  lemma DivModUnique(k: nat, d: nat, q: nat, m: nat)
    requires m < d && k == q * d + m
    ensures k / d == q && k % d == m
  {
    var q', m' := k / d, k % d;
    assert k == q' * d + m';
    if q' < q {
      MulLeq(q' + 1, q, d);
    } else if q < q' {
      MulLeq(q + 1, q', d);
    }
  }

  lemma DivShift(x: nat, d: nat)
    requires 0 < d
    ensures (x + d) / d == x / d + 1
  {
    DivModUnique(x + d, d, x / d + 1, x % d);
  }
}

=== FILE: intparse.dfy ===
/** Python's `int(text)` on the text typed at the cluster-count prompt:
    surrounding white space is ignored, one optional sign, then decimal digits,
    with single underscores allowed between digits. Anything else raises
    `ValueError`. */
module IntParse {
  import opened Results

  /** The ASCII characters `int()` skips around the number: tab, line feed,
      vertical tab, form feed, carriage return and the space. The separators
      0x1C-0x1F, which `str.strip` would remove, are not among them. */
  predicate IsSpace(ch: char) {
    9 <= ch as int <= 13 || ch == ' '
  }

  predicate IsDigit(ch: char) {
    '0' <= ch <= '9'
  }

  function StripLeft(s: string): (t: string)
    ensures |t| <= |s| && t == s[|s| - |t|..]
    ensures forall i :: 0 <= i < |s| - |t| ==> IsSpace(s[i])
    ensures t != [] ==> !IsSpace(t[0])
  {
    if s != [] && IsSpace(s[0]) then StripLeft(s[1..]) else s
  }

  function StripRight(s: string): (t: string)
    ensures |t| <= |s| && t == s[..|t|]
    ensures forall i :: |t| <= i < |s| ==> IsSpace(s[i])
    ensures t != [] ==> !IsSpace(t[|t| - 1])
  {
    if s != [] && IsSpace(s[|s| - 1]) then StripRight(s[..|s| - 1]) else s
  }

  /** The text with the skipped white space removed at both ends. */
  function Strip(s: string): string {
    StripRight(StripLeft(s))
  }

  /** Digits, with single underscores between them. */
  predicate DigitGroups(s: string) {
    && s != []
    && IsDigit(s[0]) && IsDigit(s[|s| - 1])
    && (forall i :: 0 <= i < |s| ==> IsDigit(s[i]) || s[i] == '_')
    && (forall i :: 0 <= i < |s| - 1 ==> s[i] == '_' ==> s[i + 1] != '_')
  }

  /** The number the digits of s spell, underscores skipped. */
  function DigitsValue(s: string): nat {
    if s == [] then 0
    else if s[|s| - 1] == '_' then DigitsValue(s[..|s| - 1])
    // On a digit the remainder changes nothing; it keeps the value a nat on any other character.
    else 10 * DigitsValue(s[..|s| - 1]) + (s[|s| - 1] as int - '0' as int) % 10
  }

  /** `int(s)`, or None where Python raises `ValueError`. */
  function ParseInt(s: string): (r: Option<int>)
    ensures r.Some? ==> Strip(s) != [] && IsDigit(Strip(s)[|Strip(s)| - 1])
    ensures r.Some? && r.value < 0 ==> Strip(s)[0] == '-'
  {
    var t := Strip(s);
    if t != [] && (t[0] == '+' || t[0] == '-') then
      if DigitGroups(t[1..]) then
        var magnitude: int := DigitsValue(t[1..]);
        Some(if t[0] == '-' then -magnitude else magnitude)
      else None
    else if DigitGroups(t) then Some(DigitsValue(t))
    else None
  }

  /** `str(n)`: the decimal rendering, with a minus sign for negatives. */
  function Decimal(n: int): (s: string)
    ensures s != [] && IsDigit(s[|s| - 1])
    ensures n >= 0 ==> DigitGroups(s) && DigitsValue(s) == n
    ensures n < 0 ==> s[0] == '-' && DigitGroups(s[1..]) && DigitsValue(s[1..]) == -n
  {
    if n < 0 then "-" + Natural(-n) else Natural(n)
  }

  function Natural(n: nat): (s: string)
    ensures DigitGroups(s) && DigitsValue(s) == n
  {
    var last := ['0' + (n % 10) as char];
    if n < 10 then
      assert DigitsValue(last) == 10 * DigitsValue([]) + n by {
        assert last[..0] == [];
      }
      last
    else
      var front := Natural(n / 10);
      var s := front + last;
      assert s[..|s| - 1] == front;
      s
  }

  /** Reading back what `str` wrote gives the number: every integer can be entered. */
  lemma ParseDecimal(n: int)
    ensures ParseInt(Decimal(n)) == Some(n)
  {
    var s := Decimal(n);
    assert !IsSpace(s[0]) && !IsSpace(s[|s| - 1]);
    NothingToStrip(s);
  }

  /** A character that is not white space survives the strip, at its
      position less the white space cut off in front. */
  lemma StripKeeps(s: string, i: nat)
    requires i < |s| && !IsSpace(s[i])
    ensures var offset := |s| - |StripLeft(s)|;
      offset <= i && i - offset < |Strip(s)| && Strip(s)[i - offset] == s[i]
  {
    LeftKeeps(s, i);
    var left := StripLeft(s);
    RightKeeps(left, i - (|s| - |left|));
  }

  lemma {:induction false} LeftKeeps(s: string, i: nat)
    requires i < |s| && !IsSpace(s[i])
    ensures |s| - |StripLeft(s)| <= i && StripLeft(s)[i - (|s| - |StripLeft(s)|)] == s[i]
  {
    if IsSpace(s[0]) {
      LeftKeeps(s[1..], i - 1);
    }
  }

  lemma {:induction false} RightKeeps(s: string, i: nat)
    requires i < |s| && !IsSpace(s[i])
    ensures i < |StripRight(s)| && StripRight(s)[i] == s[i]
  {
    if IsSpace(s[|s| - 1]) {
      RightKeeps(s[..|s| - 1], i);
    }
  }

  /** Text with a character that is neither a digit, a sign, an underscore
      nor white space never parses. */
  lemma RejectsForeignCharacter(s: string, i: nat)
    requires i < |s|
    requires !IsDigit(s[i]) && !IsSpace(s[i]) && s[i] !in "+-_"
    ensures ParseInt(s) == None
  {
    StripKeeps(s, i);
    var t := Strip(s);
    var j := i - (|s| - |StripLeft(s)|);
    assert t[j] == s[i];
    if t[0] == '+' || t[0] == '-' {
      assert t[1..][j - 1] == s[i];
    }
  }

  predicate AllSpace(w: string) {
    forall i :: 0 <= i < |w| ==> IsSpace(w[i])
  }

  /** Text with nothing but white space, the empty entry included, never parses. */
  lemma RejectsBlank(s: string)
    requires AllSpace(s)
    ensures ParseInt(s) == None
  {
    assert StripLeft(s) == [];
  }

  /** White space around the entry changes nothing: `int(" 8\n") == int("8")`. */
  lemma IgnoresSurroundingSpace(w1: string, s: string, w2: string)
    requires AllSpace(w1) && AllSpace(w2)
    ensures ParseInt(w1 + s + w2) == ParseInt(s)
  {
    StripSurrounded(w1, s, w2);
    SameStripSameParse(w1 + s + w2, s);
  }

  lemma StripSurrounded(w1: string, s: string, w2: string)
    requires AllSpace(w1) && AllSpace(w2)
    ensures Strip(w1 + s + w2) == Strip(s)
  {
    var rest := s + w2;
    assert w1 + s + w2 == w1 + rest;
    LeadingSpace(w1, rest);
    if StripLeft(s) != [] {
      LeftThenAppend(s, w2);
      TrailingSpace(StripLeft(s), w2);
    } else {
      BlankStrips(s, w2);
    }
  }

  /** Blank text followed by white space strips to nothing, as the blank text does. */
  lemma BlankStrips(s: string, w: string)
    requires StripLeft(s) == [] && AllSpace(w)
    ensures StripLeft(s + w) == []
  {
    var rest := s + w;
    assert AllSpace(rest) by {
      forall i | 0 <= i < |rest|
        ensures IsSpace(rest[i])
      {
        if i >= |s| {
          assert rest[i] == w[i - |s|];
        }
      }
    }
    LeadingSpace(rest, []);
    assert rest + [] == rest;
  }

  /** `int()` looks only at the stripped text. */
  lemma SameStripSameParse(a: string, b: string)
    requires Strip(a) == Strip(b)
    ensures ParseInt(a) == ParseInt(b)
  {
  }

  /** One optional sign followed by digit groups, leading zeros and single
      underscores included, parses to the signed value of the digits. */
  lemma AcceptsSignedGroups(sign: string, d: string)
    requires sign == "" || sign == "+" || sign == "-"
    requires DigitGroups(d)
    ensures ParseInt(sign + d) == Some(if sign == "-" then -(DigitsValue(d) as int) else DigitsValue(d) as int)
  {
    if sign == "" {
      assert sign + d == d;
      ParsesUnsigned(d);
    } else if sign == "+" {
      assert sign + d == ['+'] + d;
      ParsesSigned('+', d);
    } else {
      assert sign + d == ['-'] + d;
      ParsesSigned('-', d);
    }
  }

  lemma ParsesUnsigned(d: string)
    requires DigitGroups(d)
    ensures ParseInt(d) == Some(DigitsValue(d) as int)
  {
    NothingToStrip(d);
  }

  lemma ParsesSigned(c: char, d: string)
    requires (c == '+' || c == '-') && DigitGroups(d)
    ensures ParseInt([c] + d) == Some(if c == '-' then -(DigitsValue(d) as int) else DigitsValue(d) as int)
  {
    var t := [c] + d;
    assert t[0] == c && t[1..] == d && t[|t| - 1] == d[|d| - 1];
    NothingToStrip(t);
  }

  /** Text that neither starts nor ends with white space is its own strip. */
  lemma NothingToStrip(t: string)
    requires t != [] && !IsSpace(t[0]) && !IsSpace(t[|t| - 1])
    ensures Strip(t) == t
  {
    assert StripLeft(t) == t;
    assert StripRight(t) == t;
  }

  lemma {:induction false} LeadingSpace(w: string, s: string)
    requires AllSpace(w)
    ensures StripLeft(w + s) == StripLeft(s)
  {
    if w != [] {
      assert (w + s)[1..] == w[1..] + s;
      LeadingSpace(w[1..], s);
    } else {
      assert w + s == s;
    }
  }

  lemma {:induction false} TrailingSpace(s: string, w: string)
    requires AllSpace(w)
    ensures StripRight(s + w) == StripRight(s)
  {
    if w != [] {
      var x := s + w;
      assert x[..|x| - 1] == s + w[..|w| - 1];
      TrailingSpace(s, w[..|w| - 1]);
    } else {
      assert s + w == s;
    }
  }

  lemma {:induction false} LeftThenAppend(s: string, w: string)
    requires StripLeft(s) != []
    ensures StripLeft(s + w) == StripLeft(s) + w
  {
    var x := s + w;
    assert x[0] == s[0];
    if IsSpace(s[0]) {
      assert StripLeft(s) == StripLeft(s[1..]);
      assert x[1..] == s[1..] + w;
      LeftThenAppend(s[1..], w);
    } else {
      assert StripLeft(s) == s;
    }
  }
}

=== FILE: kmeans.dfy ===
/** The clustering workflow: stacking the cropped Sentinel-2 and Sentinel-1
    cubes into one (rows, columns, bands) raster, and `run_Kmeans`, which
    flattens it to a pixel-by-band sample matrix, draws training pixels,
    sweeps the candidate cluster counts, fits with the count the user types,
    predicts every pixel, reshapes the labels to an image, names the output
    file and updates the metadata it is written with.

    The clustering library (K-means fit and predict, silhouette score, PCA)
    and brightness normalisation are function parameters: the model fixes
    what they are given and what is done with what they return, not how
    they compute it. */
module Kmeans {
  import opened Results
  import opened Arith
  import opened NdArray
  import opened Sampling
  import opened Sweep
  import opened IntParse
  import opened Naming
  import opened Metadata

  // ---------------------------------------------------------------------
  // Band stacking

  /** The bands of S2 followed by those of S1 at every pixel of the concatenation. */
  lemma StackedBandVector<T>(s2: Array3<T>, s1: Array3<T>, r: nat, c: nat)
    requires s2.Valid() && s1.Valid() && s2.n1 == s1.n1 && s2.n2 == s1.n2
    requires r < s2.n1 && c < s2.n2
    ensures Concatenate(s2, s1).Ok?
    ensures BandVector(Concatenate(s2, s1).value, r, c) == BandVector(s2, r, c) + BandVector(s1, r, c)
  {
    var stacked := Concatenate(s2, s1).value;
    forall b | 0 <= b < stacked.n0
      ensures BandVector(stacked, r, c)[b] == (BandVector(s2, r, c) + BandVector(s1, r, c))[b]
    {
      if b < s2.n0 {
        assert stacked.cells[b] == stacked.cells[..s2.n0][b];
      } else {
        assert stacked.cells[b] == stacked.cells[s2.n0..][b - s2.n0];
      }
    }
  }

  /** `np.concatenate((img, img2), axis=0)` then `np.transpose(raster, [1, 2, 0])`:
      a (rows, columns, bands) raster whose band vector at each pixel is the
      S2 bands there followed by the S1 bands there. */
  function StackBands<T>(s2: Array3<T>, s1: Array3<T>): (r: Result<Array3<T>>)
    requires s2.Valid() && s1.Valid()
    ensures r.Ok? <==> s2.n1 == s1.n1 && s2.n2 == s1.n2
    ensures r.Err? ==> r.error == ShapeMismatch
    ensures r.Ok? ==> && r.value.Valid()
                      && r.value.n0 == s2.n1 && r.value.n1 == s2.n2 && r.value.n2 == s2.n0 + s1.n0
    ensures r.Ok? ==> forall y, x :: 0 <= y < s2.n1 && 0 <= x < s2.n2 ==>
                        r.value.cells[y][x] == BandVector(s2, y, x) + BandVector(s1, y, x)
  {
    match Concatenate(s2, s1)
    case Err(e) => Err(e)
    case Ok(stacked) =>
      var raster := Transpose(stacked);
      assert forall y, x :: 0 <= y < s2.n1 && 0 <= x < s2.n2 ==>
               raster.cells[y][x] == BandVector(s2, y, x) + BandVector(s1, y, x) by {
        forall y, x | 0 <= y < s2.n1 && 0 <= x < s2.n2
          ensures raster.cells[y][x] == BandVector(s2, y, x) + BandVector(s1, y, x)
        {
          StackedBandVector(s2, s1, y, x);
        }
      }
      Ok(raster)
  }

  // ---------------------------------------------------------------------
  // Flattening and the label image

  lemma RavelLength<T>(a: Array3<T>)
    requires a.Valid()
    ensures |Ravel3(a)| == a.n0 * a.n1 * a.n2
  {
    PlanesUniform(a);
    ConcatLength(Planes(a.cells), a.n1 * a.n2);
    MulAssociates(a.n0, a.n1, a.n2);
  }

  /** `np.reshape(raster, (rows * columns, raster.shape[2]))`: the pixel-by-band
      sample matrix, or numpy's error when rows * columns pixels do not fit. */
  function SampleMatrix<T>(raster: Array3<T>, rows: nat, columns: nat): (x: Result<Array2<T>>)
    requires raster.Valid()
    ensures x.Ok? <==> raster.n0 * raster.n1 * raster.n2 == rows * columns * raster.n2
    ensures x.Err? ==> x.error == BadReshape
    ensures x.Ok? ==> x.value.Valid() && x.value.n0 == rows * columns && x.value.n1 == raster.n2
  {
    RavelLength(raster);
    Reshape(Ravel3(raster), rows * columns, raster.n2)
  }

  /** With the raster's own rows and columns, flat row r * columns + c of the
      sample matrix holds the band vector of pixel (r, c). */
  lemma FlattenRoundTrip<T>(raster: Array3<T>, r: nat, c: nat)
    requires raster.Valid() && r < raster.n0 && c < raster.n1
    ensures SampleMatrix(raster, raster.n0, raster.n1).Ok?
    ensures var x := SampleMatrix(raster, raster.n0, raster.n1).value;
      r * raster.n1 + c < x.n0 && x.cells[r * raster.n1 + c] == raster.cells[r][c]
  {
    var rows, columns, bands := raster.n0, raster.n1, raster.n2;
    var flat := Ravel3(raster);
    RavelLength(raster);
    MulAssociates(rows, columns, bands);
    var x := SampleMatrix(raster, rows, columns).value;
    var k := r * columns + c;
    PixelIndex(rows, columns, r, c);
    assert x.cells == Chunks(flat, rows * columns, bands);
    forall b | 0 <= b < bands
      ensures x.cells[k][b] == raster.cells[r][c][b]
    {
      ChunksAt(flat, rows * columns, bands, k, b);
      RavelAt(raster, r, c, b);
    }
  }

  /** `np.reshape(predCluster, (rows, columns))`: the label at (r, c) is the
      prediction for flat row r * columns + c. */
  lemma LabelImageAt(predictions: seq<int>, rows: nat, columns: nat, r: nat, c: nat)
    requires |predictions| == rows * columns && r < rows && c < columns
    ensures Reshape(predictions, rows, columns).Ok?
    ensures var image := Reshape(predictions, rows, columns).value;
      && image.n0 == rows && image.n1 == columns
      && r * columns + c < |predictions| && image.cells[r][c] == predictions[r * columns + c]
  {
    ChunksAt(predictions, rows, columns, r, c);
  }

  /** The stacked raster, flattened, has at row r * columns + c the S2 band
      values of pixel (r, c) followed by its S1 band values. */
  lemma SampleRowIsStackedPixel<T>(s2: Array3<T>, s1: Array3<T>, r: nat, c: nat)
    requires s2.Valid() && s1.Valid() && s2.n1 == s1.n1 && s2.n2 == s1.n2
    requires r < s2.n1 && c < s2.n2
    ensures StackBands(s2, s1).Ok?
    ensures var raster := StackBands(s2, s1).value;
      && SampleMatrix(raster, s2.n1, s2.n2).Ok?
      && r * s2.n2 + c < SampleMatrix(raster, s2.n1, s2.n2).value.n0
      && SampleMatrix(raster, s2.n1, s2.n2).value.cells[r * s2.n2 + c]
         == BandVector(s2, r, c) + BandVector(s1, r, c)
  {
    var raster := StackBands(s2, s1).value;
    assert raster.cells[r][c] == BandVector(s2, r, c) + BandVector(s1, r, c);
    FlattenRoundTrip(raster, r, c);
  }

  // ---------------------------------------------------------------------
  // The analysis set-up of the script

  /** Lines after cropping: copy the S2 metadata and update it for the crop,
      take rows and columns from the cropped S2 shape, stack the bands. */
  method PrepareStudyArea<T>(s2: Array3<T>, s1: Array3<T>, sourceMeta: map<string, Value>, transform: Affine)
    returns (meta: Meta, rows: nat, columns: nat, raster: Result<Array3<T>>)
    requires s2.Valid() && s1.Valid()
    ensures fresh(meta)
    ensures meta.entries == Updated(sourceMeta, CropPatch(s2.n1, s2.n2, transform))
    ensures rows == s2.n1 && columns == s2.n2
    ensures raster == StackBands(s2, s1)
  {
    meta := new Meta.Copy(sourceMeta);
    meta.ApplyCrop(s2, transform);
    rows, columns := s2.n1, s2.n2;
    raster := StackBands(s2, s1);
  }

  // ---------------------------------------------------------------------
  // run_Kmeans

  /** What a finished run produced and wrote: the pixel matrix, the matrix
      after the chosen preprocessing, the training indices, the sweep report,
      the chosen count, the per-pixel predictions, the label image and the
      output file name. */
  datatype Run<T> = Run(
    pixels: seq<seq<T>>,
    features: seq<seq<T>>,
    indices: seq<nat>,
    report: seq<(int, real)>,
    clusters: int,
    predictions: seq<int>,
    labels: Array2<int>,
    output: string)

  /** The preprocessing `run_Kmeans` applies: normalisation first, then PCA. */
  function Preprocess(pixels: seq<seq<real>>, bnorm: bool, pca: bool,
                      normalize: seq<seq<real>> -> seq<seq<real>>,
                      project: seq<seq<real>> -> seq<seq<real>>): (x: seq<seq<real>>)
    ensures !bnorm && !pca ==> x == pixels
    ensures bnorm && !pca ==> x == normalize(pixels)
    ensures !bnorm && pca ==> x == project(pixels)
    ensures bnorm && pca ==> x == project(normalize(pixels))
    // Steps that keep one row per pixel keep the matrix one row per pixel.
    ensures (forall m :: |normalize(m)| == |m|) && (forall m :: |project(m)| == |m|) ==> |x| == |pixels|
  {
    var x := if bnorm then normalize(pixels) else pixels;
    if pca then project(x) else x
  }

  /** `run_Kmeans(raster, numSamples, bnorm, pca)` with the script globals
      `rows`, `columns` and `meta` passed in, the typed answer as `entered`,
      the generator as `draw`, and the library calls as functions:
      `silhouette(samples, n)` scores a fit with n clusters and
      `fitPredict(n, samples, X)` labels the rows of X after fitting n
      clusters to the samples. Band values are reals, the floating-point
      reflectances of the rasters. The script's calls leave numSamples at its
      default of 10000; `dtype` is the name of the label array's element
      type, which numpy decides. */
  method RunKmeans(raster: Array3<real>, rows: nat, columns: nat, meta: Meta,
                   numSamples: int, bnorm: bool, pca: bool, entered: string,
                   draw: nat -> nat,
                   normalize: seq<seq<real>> -> seq<seq<real>>,
                   project: seq<seq<real>> -> seq<seq<real>>,
                   silhouette: (seq<seq<real>>, int) -> real,
                   fitPredict: (int, seq<seq<real>>, seq<seq<real>>) -> seq<int>,
                   dtype: string)
    returns (result: Result<Run<real>>)
    requires raster.Valid()
    // Normalisation and PCA keep one row per pixel; prediction gives one label per row.
    requires forall m :: |normalize(m)| == |m|
    requires forall m :: |project(m)| == |m|
    requires forall n, s, x :: |fitPredict(n, s, x)| == |x|
    modifies meta
    // A run that fails leaves the metadata alone; one that finishes writes the label entries.
    ensures result.Err? ==> meta.entries == old(meta.entries)
    ensures result.Ok? ==> meta.entries == Updated(old(meta.entries), LabelPatch(dtype))
    // A run finishes exactly when the flatten fits, the draw is possible and the entry parses.
    ensures result.Ok? <==> && SampleMatrix(raster, rows, columns).Ok?
                            && numSamples >= 0 && (rows * columns > 0 || numSamples == 0)
                            && ParseInt(entered).Some?
    // Otherwise it fails at the first step that cannot go on.
    ensures SampleMatrix(raster, rows, columns).Err? ==> result == Err(BadReshape)
    ensures SampleMatrix(raster, rows, columns).Ok? && rows * columns == 0 && numSamples != 0
            ==> result == Err(EmptyRange)
    ensures SampleMatrix(raster, rows, columns).Ok? && rows * columns > 0 && numSamples < 0
            ==> result == Err(NegativeSize)
    ensures && SampleMatrix(raster, rows, columns).Ok?
            && numSamples >= 0 && (rows * columns > 0 || numSamples == 0)
            && ParseInt(entered).None?
            ==> result == Err(NotAnInteger)
    // What a finished run computed.
    ensures result.Ok? ==> var run := result.value;
      && SampleMatrix(raster, rows, columns).Ok?
      && run.pixels == SampleMatrix(raster, rows, columns).value.cells
      && run.features == Preprocess(run.pixels, bnorm, pca, normalize, project)
      && |run.features| == rows * columns
      && SampleIndices(rows * columns, numSamples, draw) == Ok(run.indices)
      && |run.indices| == numSamples
      && (forall i :: 0 <= i < |run.indices| ==> run.indices[i] < rows * columns)
      && |run.report| == 16
      && (forall i :: 0 <= i < 16 ==>
            run.report[i] == (2 + 2 * i, silhouette(Gather(run.features, run.indices), 2 + 2 * i)))
      && ParseInt(entered) == Some(run.clusters)
      && run.predictions == fitPredict(run.clusters, Gather(run.features, run.indices), run.features)
      && |run.predictions| == rows * columns
      && Reshape(run.predictions, rows, columns) == Ok(run.labels)
      && run.output == FileName(entered, bnorm, pca)
  {
    var flat := SampleMatrix(raster, rows, columns);
    if flat.Err? {
      return Err(flat.error);
    }
    var pixels := flat.value.cells;

    var x := pixels;
    if bnorm {
      x := normalize(x);
    }
    if pca {
      x := project(x);
    }

    var idx := SampleIndices(|x|, numSamples, draw);
    if idx.Err? {
      return Err(idx.error);
    }
    var samples := Gather(x, idx.value);

    var report := RunSweep(samples, silhouette);

    var bestCluster := ParseInt(entered);
    if bestCluster.None? {
      return Err(NotAnInteger);
    }
    var predictions := fitPredict(bestCluster.value, samples, x);

    // One label per pixel, so the reshape to (rows, columns) always fits.
    var image := Reshape(predictions, rows, columns).value;

    var output := OutputName(entered, bnorm, pca);
    meta.Update(LabelPatch(dtype));
    result := Ok(Run(pixels, x, idx.value, report, bestCluster.value, predictions, image, output));
  }
}

=== FILE: metadata.dfy ===
/** The raster metadata dictionary that the output GeoTIFF is written with.
    It starts as a copy of the Sentinel-2 file's metadata, is edited in place
    once after cropping, and once more by every clustering run. */
module Metadata {
  import opened NdArray

  /** An affine pixel-to-map transform, as the six coefficients a..f. */
  datatype Affine = Affine(a: real, b: real, c: real, d: real, e: real, f: real)

  /** A metadata value; values the workflow never reads are kept as text. */
  datatype Value = Text(s: string) | Number(n: int) | Transform(t: Affine) | Opaque(repr: string)

  /** The entries the crop step writes: the cropped image's height and width,
      the GeoTIFF driver and the crop's transform. */
  function CropPatch(height: nat, width: nat, transform: Affine): map<string, Value> {
    map["driver" := Text("GTiff"), "height" := Number(height), "width" := Number(width),
        "transform" := Transform(transform)]
  }

  /** The entries a clustering run writes: one band, of the label image's type. */
  function LabelPatch(dtype: string): map<string, Value> {
    map["dtype" := Text(dtype), "count" := Number(1)]
  }

  /** `dict.update`: the patch's entries win, every other entry stays as it was. */
  function Updated(entries: map<string, Value>, patch: map<string, Value>): (r: map<string, Value>)
    ensures r.Keys == entries.Keys + patch.Keys
    ensures forall k :: k in patch ==> r[k] == patch[k]
    ensures forall k :: k in entries && k !in patch ==> r[k] == entries[k]
  {
    entries + patch
  }

  /** Every clustering run writes the same label entries, so the runs after
      the first leave the metadata as the first left it. */
  lemma LabelPatchIdempotent(entries: map<string, Value>, dtype: string)
    ensures Updated(Updated(entries, LabelPatch(dtype)), LabelPatch(dtype))
         == Updated(entries, LabelPatch(dtype))
  {
  }

  /** The dictionary object `meta`, shared by the script and every run. */
  class Meta {
    var entries: map<string, Value>

    /** `src.meta.copy()`: a new dictionary with the source's entries. */
    constructor Copy(source: map<string, Value>)
      ensures entries == source
    {
      entries := source;
    }

    method Update(patch: map<string, Value>)
      modifies this
      ensures entries == Updated(old(entries), patch)
    {
      entries := entries + patch;
    }

    /** The update after cropping: height and width from the cropped image's
        (bands, rows, columns) shape, the GeoTIFF driver and the new transform;
        every other entry unchanged. */
    method ApplyCrop<T>(img: Array3<T>, transform: Affine)
      requires img.Valid()
      modifies this
      ensures entries == Updated(old(entries), CropPatch(img.n1, img.n2, transform))
      ensures entries["driver"] == Text("GTiff") && entries["transform"] == Transform(transform)
      ensures entries["height"] == Number(img.n1) && entries["width"] == Number(img.n2)
      ensures forall k :: k in old(entries) && k !in {"driver", "height", "width", "transform"} ==>
                k in entries && entries[k] == old(entries)[k]
    {
      Update(CropPatch(img.n1, img.n2, transform));
    }
  }
}

=== FILE: naming.dfy ===
/** The name of the GeoTIFF a clustering run writes: a fixed prefix, the
    cluster count exactly as typed, the letter k, one suffix per
    preprocessing step applied, and the extension. */
module Naming {

  const PREFIX: string := "Sentinel_40m_kmeans_"
  const EXTENSION: string := ".tif"

  /** Python's `s[:-4]`: everything but the last four characters. */
  function DropLastFour(s: string): (t: string)
    ensures |t| == if |s| >= 4 then |s| - 4 else 0
    ensures t == s[..|t|]
  {
    if |s| >= 4 then s[..|s| - 4] else ""
  }

  /** Before each slice the name ends in ".tif", so the slice removes exactly that. */
  lemma DropExtension(stem: string)
    ensures DropLastFour(stem + EXTENSION) == stem
  {
    assert (stem + EXTENSION)[..|stem|] == stem;
  }

  /** The suffixes of the preprocessing steps, brightness normalisation first. */
  function Suffix(bnorm: bool, pca: bool): string {
    (if bnorm then "_bnorm" else "") + (if pca then "_pca" else "")
  }

  /** What follows the entry: the letter k, the suffixes and the extension. */
  function Tail(bnorm: bool, pca: bool): string {
    "k" + Suffix(bnorm, pca) + EXTENSION
  }

  /** The name a run with these settings writes. */
  function FileName(entered: string, bnorm: bool, pca: bool): string {
    PREFIX + entered + Tail(bnorm, pca)
  }

  /** The name built as `run_Kmeans` builds it: the name with the bare "k"
      first, then for each step applied its extension cut off and the
      step's suffix and the extension put back. */
  method OutputName(entered: string, bnorm: bool, pca: bool) returns (output: string)
    ensures output == FileName(entered, bnorm, pca)
  {
    ghost var stem := PREFIX + entered + "k";
    output := PREFIX + entered + "k.tif";
    assert output == stem + EXTENSION;
    if bnorm {
      DropExtension(stem);
      output := DropLastFour(output) + "_bnorm.tif";
      stem := stem + "_bnorm";
      assert output == stem + EXTENSION;
    }
    if pca {
      DropExtension(stem);
      output := DropLastFour(output) + "_pca.tif";
      stem := stem + "_pca";
      assert output == stem + EXTENSION;
    }
    assert stem == PREFIX + entered + "k" + Suffix(bnorm, pca);
    Regroup(PREFIX + entered, "k", Suffix(bnorm, pca), EXTENSION);
  }

  lemma Regroup(head: string, a: string, b: string, c: string)
    ensures head + a + b + c == head + (a + b + c)
  {
  }

  /** The name begins with the prefix and the entry verbatim, then "k", and ends with ".tif". */
  lemma NameLayout(entered: string, bnorm: bool, pca: bool)
    ensures var name := FileName(entered, bnorm, pca);
      && |name| >= |PREFIX| + |entered| + 1 + |EXTENSION|
      && name[..|PREFIX|] == PREFIX
      && name[|PREFIX|..|PREFIX| + |entered|] == entered
      && name[|PREFIX| + |entered|] == 'k'
      && name[|name| - |EXTENSION|..] == EXTENSION
  {
    var head, tail := PREFIX + entered, Tail(bnorm, pca);
    var name := head + tail;
    TailShape(bnorm, pca);
    assert name[..|head|] == head;
    assert name[..|PREFIX|] == head[..|PREFIX|] == PREFIX;
    assert name[|PREFIX|..|head|] == head[|PREFIX|..] == entered;
    assert name[|head|] == tail[0];
    assert name[|name| - |EXTENSION|..] == tail[|tail| - |EXTENSION|..];
  }

  /** The four combinations of steps give the four suffix orders. */
  lemma SuffixOrder(entered: string)
    ensures FileName(entered, false, false) == PREFIX + entered + "k.tif"
    ensures FileName(entered, true, false) == PREFIX + entered + "k_bnorm.tif"
    ensures FileName(entered, false, true) == PREFIX + entered + "k_pca.tif"
    ensures FileName(entered, true, true) == PREFIX + entered + "k_bnorm_pca.tif"
  {
    assert Tail(false, false) == "k.tif";
    assert Tail(true, false) == "k_bnorm.tif";
    assert Tail(false, true) == "k_pca.tif";
    assert Tail(true, true) == "k_bnorm_pca.tif";
  }

  /** The name determines the entry and the steps: runs that differ in
      either never write the same file. */
  lemma {:induction false} NameDeterminesRun(e1: string, b1: bool, p1: bool, e2: string, b2: bool, p2: bool)
    requires FileName(e1, b1, p1) == FileName(e2, b2, p2)
    ensures e1 == e2 && b1 == b2 && p1 == p2
  {
    var name := FileName(e1, b1, p1);
    var tail1, tail2 := Tail(b1, p1), Tail(b2, p2);
    TailShape(b1, p1);
    TailShape(b2, p2);
    // The fifth character from the end tells a bare "k" (k), "_bnorm" (m) and "_pca" (a) apart.
    assert name[|name| - 5] == tail1[|tail1| - 5] == tail2[|tail2| - 5];
    if p1 && p2 {
      // The ninth character from the end tells "k_pca" (k) from "_bnorm_pca" (m).
      assert name[|name| - 9] == tail1[|tail1| - 9] == tail2[|tail2| - 9];
    }
    assert |e1| == |e2|;
    assert e1 == name[|PREFIX|..|PREFIX| + |e1|] == e2;
  }

  /** The characters of the tail that tell the steps apart. */
  lemma TailShape(bnorm: bool, pca: bool)
    ensures var tail := Tail(bnorm, pca);
      && |tail| >= 5 && (pca ==> |tail| >= 9)
      && tail[0] == 'k' && tail[|tail| - |EXTENSION|..] == EXTENSION
      && tail[|tail| - 5] == (if pca then 'a' else if bnorm then 'm' else 'k')
      && (pca ==> tail[|tail| - 9] == (if bnorm then 'm' else 'k'))
  {
    SuffixOrder([]);
  }
}

=== FILE: ndarray.dfy ===
/** The numpy array operations the workflow uses on its raster cubes:
    row-major flattening and reshaping, concatenation along the first axis,
    and the axis permutation (1, 2, 0). An array carries its shape, as a
    numpy array does, next to its nested cells. */
module NdArray {
  import opened Results
  import opened Arith

  /** A two-dimensional array of shape (n0, n1). */
  datatype Array2<T> = Array2(n0: nat, n1: nat, cells: seq<seq<T>>) {
    predicate Valid() {
      |cells| == n0 && Uniform(cells, n1)
    }
  }

  /** A three-dimensional array of shape (n0, n1, n2). */
  datatype Array3<T> = Array3(n0: nat, n1: nat, n2: nat, cells: seq<seq<seq<T>>>) {
    predicate Valid() {
      && |cells| == n0
      && (forall i :: 0 <= i < n0 ==> |cells[i]| == n1)
      && (forall i, j :: 0 <= i < n0 && 0 <= j < n1 ==> |cells[i][j]| == n2)
    }
  }

  /** Every row has length n. */
  predicate Uniform<T>(rows: seq<seq<T>>, n: nat) {
    forall i :: 0 <= i < |rows| ==> |rows[i]| == n
  }

  // ---------------------------------------------------------------------
  // Row-major order

  /** The rows laid end to end: numpy's C (row-major) order. */
  function Concat<T>(rows: seq<seq<T>>): seq<T> {
    if rows == [] then [] else rows[0] + Concat(rows[1..])
  }

  lemma {:induction false} ConcatLength<T>(rows: seq<seq<T>>, n: nat)
    requires Uniform(rows, n)
    ensures |Concat(rows)| == |rows| * n
  {
    if rows != [] {
      ConcatLength(rows[1..], n);
      PeelRow(|rows|, n);
    }
  }

  /** Element j of row i sits at flat position i * n + j. */
  lemma {:induction false} ConcatAt<T>(rows: seq<seq<T>>, n: nat, i: nat, j: nat)
    requires Uniform(rows, n) && i < |rows| && j < n
    ensures i * n + j < |Concat(rows)| && Concat(rows)[i * n + j] == rows[i][j]
  {
    ConcatLength(rows, n);
    if i == 0 {
      assert Concat(rows) == rows[0] + Concat(rows[1..]);
    } else {
      ConcatAt(rows[1..], n, i - 1, j);
      ShiftRow(i, n, j);
      assert Concat(rows) == rows[0] + Concat(rows[1..]);
    }
  }

  /** The flat sequence cut into n0 consecutive rows of n1 elements. */
  function Chunks<T>(flat: seq<T>, n0: nat, n1: nat): (rows: seq<seq<T>>)
    requires |flat| == n0 * n1
    ensures |rows| == n0 && Uniform(rows, n1)
    decreases n0
  {
    if n0 == 0 then []
    else
      PeelRow(n0, n1);
      [flat[..n1]] + Chunks(flat[n1..], n0 - 1, n1)
  }

  /** Row i, column j of the chunks is flat element i * n1 + j. */
  lemma {:induction false} ChunksAt<T>(flat: seq<T>, n0: nat, n1: nat, i: nat, j: nat)
    requires |flat| == n0 * n1 && i < n0 && j < n1
    ensures i * n1 + j < |flat| && Chunks(flat, n0, n1)[i][j] == flat[i * n1 + j]
  {
    PeelRow(n0, n1);
    var rest := flat[n1..];
    var rows := Chunks(flat, n0, n1);
    assert rows == [flat[..n1]] + Chunks(rest, n0 - 1, n1);
    if i == 0 {
      assert rows[0] == flat[..n1];
    } else {
      ChunksAt(rest, n0 - 1, n1, i - 1, j);
      ShiftRow(i, n1, j);
      assert rows[i] == Chunks(rest, n0 - 1, n1)[i - 1];
    }
  }

  /** Cutting into rows and laying them end to end again gives back the flat sequence. */
  lemma {:induction false} ConcatChunks<T>(flat: seq<T>, n0: nat, n1: nat)
    requires |flat| == n0 * n1
    ensures Concat(Chunks(flat, n0, n1)) == flat
  {
    if n0 > 0 {
      PeelRow(n0, n1);
      ConcatChunks(flat[n1..], n0 - 1, n1);
      assert flat == flat[..n1] + flat[n1..];
    }
  }

  /** Laying equal rows end to end and cutting them again gives back the rows. */
  lemma {:induction false} ChunksConcat<T>(rows: seq<seq<T>>, n: nat)
    requires Uniform(rows, n)
    ensures |Concat(rows)| == |rows| * n && Chunks(Concat(rows), |rows|, n) == rows
  {
    ConcatLength(rows, n);
    if rows != [] {
      ChunksConcat(rows[1..], n);
      var flat := Concat(rows);
      assert flat == rows[0] + Concat(rows[1..]);
      assert flat[..n] == rows[0];
      assert flat[n..] == Concat(rows[1..]);
      assert rows == [rows[0]] + rows[1..];
    }
  }

  // ---------------------------------------------------------------------
  // numpy operations

  /** `a.ravel()`: the elements of a cube in row-major order. */
  function Ravel3<T>(a: Array3<T>): seq<T> {
    Concat(Planes(a.cells))
  }

  /** Each plane of a cube flattened on its own. */
  function Planes<T>(cells: seq<seq<seq<T>>>): (planes: seq<seq<T>>)
    ensures |planes| == |cells|
  {
    seq(|cells|, i requires 0 <= i < |cells| => Concat(cells[i]))
  }

  /** Element (i, j, k) of a cube sits at flat position (i * n1 + j) * n2 + k. */
  lemma RavelAt<T>(a: Array3<T>, i: nat, j: nat, k: nat)
    requires a.Valid() && i < a.n0 && j < a.n1 && k < a.n2
    ensures |Ravel3(a)| == a.n0 * a.n1 * a.n2
    ensures (i * a.n1 + j) * a.n2 + k < |Ravel3(a)|
    ensures Ravel3(a)[(i * a.n1 + j) * a.n2 + k] == a.cells[i][j][k]
  {
    var plane := a.n1 * a.n2;
    var m := j * a.n2 + k;
    ConcatAt(a.cells[i], a.n2, j, k);
    ConcatLength(a.cells[i], a.n2);
    assert Planes(a.cells)[i][m] == a.cells[i][j][k];
    PlanesUniform(a);
    ConcatLength(Planes(a.cells), plane);
    ConcatAt(Planes(a.cells), plane, i, m);
    MulRegroup(i, j, k, a.n1, a.n2);
    MulAssociates(a.n0, a.n1, a.n2);
  }

  lemma PlanesUniform<T>(a: Array3<T>)
    requires a.Valid()
    ensures Uniform(Planes(a.cells), a.n1 * a.n2)
  {
    forall i | 0 <= i < a.n0
      ensures |Planes(a.cells)[i]| == a.n1 * a.n2
    {
      ConcatLength(a.cells[i], a.n2);
    }
  }

  /** `np.reshape(x, (n0, n1))` for an array whose row-major elements are
      `flat`: numpy raises `ValueError` unless the sizes agree. */
  function Reshape<T>(flat: seq<T>, n0: nat, n1: nat): (r: Result<Array2<T>>)
    ensures r.Ok? <==> |flat| == n0 * n1
    ensures r.Err? ==> r.error == BadReshape
    ensures r.Ok? ==> r.value.Valid() && r.value.n0 == n0 && r.value.n1 == n1
    ensures r.Ok? ==> Concat(r.value.cells) == flat
  {
    if |flat| != n0 * n1 then Err(BadReshape)
    else
      ConcatChunks(flat, n0, n1);
      Ok(Array2(n0, n1, Chunks(flat, n0, n1)))
  }

  /** `np.concatenate((a, b), axis=0)`. */
  function Concatenate<T>(a: Array3<T>, b: Array3<T>): (r: Result<Array3<T>>)
    requires a.Valid() && b.Valid()
    ensures r.Ok? <==> a.n1 == b.n1 && a.n2 == b.n2
    ensures r.Err? ==> r.error == ShapeMismatch
    ensures r.Ok? ==> && r.value.Valid()
                      && r.value.n0 == a.n0 + b.n0 && r.value.n1 == a.n1 && r.value.n2 == a.n2
                      && r.value.cells[..a.n0] == a.cells
                      && r.value.cells[a.n0..] == b.cells
  {
    if a.n1 != b.n1 || a.n2 != b.n2 then Err(ShapeMismatch)
    else Ok(Array3(a.n0 + b.n0, a.n1, a.n2, a.cells + b.cells))
  }

  /** The values of every band at pixel (r, c) of a (bands, rows, columns) cube. */
  function BandVector<T>(a: Array3<T>, r: nat, c: nat): (v: seq<T>)
    requires a.Valid() && r < a.n1 && c < a.n2
    ensures |v| == a.n0
  {
    seq(a.n0, b requires 0 <= b < a.n0 => a.cells[b][r][c])
  }

  /** `np.transpose(a, [1, 2, 0])`: (bands, rows, columns) becomes (rows, columns, bands). */
  function Transpose<T>(a: Array3<T>): (t: Array3<T>)
    requires a.Valid()
    ensures t.Valid() && t.n0 == a.n1 && t.n1 == a.n2 && t.n2 == a.n0
    ensures forall r, c :: 0 <= r < a.n1 && 0 <= c < a.n2 ==> t.cells[r][c] == BandVector(a, r, c)
  {
    Array3(a.n1, a.n2, a.n0,
      seq(a.n1, r requires 0 <= r < a.n1 =>
        seq(a.n2, c requires 0 <= c < a.n2 => BandVector(a, r, c))))
  }

  /** `np.transpose(t, [2, 0, 1])`, the permutation that undoes (1, 2, 0). */
  function TransposeBack<T>(t: Array3<T>): (a: Array3<T>)
    requires t.Valid()
    ensures a.Valid() && a.n0 == t.n2 && a.n1 == t.n0 && a.n2 == t.n1
  {
    Array3(t.n2, t.n0, t.n1,
      seq(t.n2, b requires 0 <= b < t.n2 =>
        seq(t.n0, r requires 0 <= r < t.n0 =>
          seq(t.n1, c requires 0 <= c < t.n1 => t.cells[r][c][b]))))
  }

  /** The transpose loses nothing: undoing it gives back the original cube. */
  lemma TransposeRoundTrip<T>(a: Array3<T>)
    requires a.Valid()
    ensures TransposeBack(Transpose(a)) == a
  {
    var t := Transpose(a);
    var back := TransposeBack(t);
    forall b | 0 <= b < a.n0
      ensures back.cells[b] == a.cells[b]
    {
      forall r | 0 <= r < a.n1
        ensures back.cells[b][r] == a.cells[b][r]
      {
        forall c | 0 <= c < a.n2
          ensures back.cells[b][r][c] == a.cells[b][r][c]
        {
          assert t.cells[r][c] == BandVector(a, r, c);
        }
      }
    }
  }

  /** Transposing keeps element [b][r][c] of the cube at [r][c][b]. */
  lemma TransposeAt<T>(a: Array3<T>, b: nat, r: nat, c: nat)
    requires a.Valid() && b < a.n0 && r < a.n1 && c < a.n2
    ensures Transpose(a).cells[r][c][b] == a.cells[b][r][c]
  {
  }

  // ---------------------------------------------------------------------
  // Pixel indexing

  /** Flat position r * columns + c names pixel (r, c), and every flat
      position below rows * columns names exactly one pixel. */
  lemma PixelIndex(rows: nat, columns: nat, r: nat, c: nat)
    requires r < rows && c < columns
    ensures r * columns + c < rows * columns
    ensures (r * columns + c) / columns == r && (r * columns + c) % columns == c
  {
    MulLeq(r + 1, rows, columns);
    DivModUnique(r * columns + c, columns, r, c);
  }

  lemma FlatIndex(rows: nat, columns: nat, k: nat)
    requires k < rows * columns
    ensures columns > 0 && k / columns < rows && k % columns < columns
    ensures (k / columns) * columns + k % columns == k
  {
    if rows <= k / columns {
      MulLeq(rows, k / columns, columns);
    }
  }
}

=== FILE: results.dfy ===
/** The failures the clustering workflow can meet. Every one of them is a
    Python exception (a `ValueError` raised by numpy or by `int`) that the
    script does not catch: the run stops there. */
module Results {

  datatype Failure =
    | ShapeMismatch   // np.concatenate: the arrays disagree off the joining axis
    | BadReshape      // np.reshape: the element count does not fit the new shape
    | EmptyRange      // np.random.randint: draws asked for below a non-positive bound
    | NegativeSize    // np.random.randint: a negative number of draws
    | NotAnInteger    // int(): the entered text is not a decimal integer

  datatype Result<T> = Ok(value: T) | Err(error: Failure)

  datatype Option<T> = None | Some(value: T)
}

=== FILE: sampling.dfy ===
/** Choosing the training pixels: `numSamples` row indices drawn with
    replacement from the sample matrix, then the rows they name. The random
    generator is a parameter: `draw(i)` is the generator's i-th raw value. */
module Sampling {
  import opened Results

  /** `np.random.randint(n, size=numSamples)`: no draws give the empty array
      whatever the bound; otherwise numpy refuses a non-positive bound, then a
      negative size, and draw i becomes index draw(i) mod n. */
  function SampleIndices(n: nat, numSamples: int, draw: nat -> nat): (r: Result<seq<nat>>)
    ensures numSamples == 0 ==> r == Ok([])
    ensures n == 0 && numSamples != 0 ==> r == Err(EmptyRange)
    ensures n > 0 && numSamples < 0 ==> r == Err(NegativeSize)
    ensures r.Ok? <==> numSamples >= 0 && (n > 0 || numSamples == 0)
    ensures r.Ok? ==> |r.value| == numSamples && forall i :: 0 <= i < |r.value| ==> r.value[i] < n
  {
    if numSamples == 0 then Ok([])
    else if n == 0 then Err(EmptyRange)
    else if numSamples < 0 then Err(NegativeSize)
    else Ok(seq(numSamples, i requires 0 <= i => draw(i) % n))
  }

  /** Drawing is with replacement and unconstrained: every sequence of
      in-range indices, repeats included, is what some generator yields. */
  lemma EveryIndexSequenceReachable(n: nat, target: seq<nat>)
    requires forall i :: 0 <= i < |target| ==> target[i] < n
    ensures exists draw: nat -> nat :: SampleIndices(n, |target|, draw) == Ok(target)
  {
    var draw := (i: nat) => if i < |target| then target[i] else 0;
    var r := SampleIndices(n, |target|, draw);
    assert r.Ok? by {
      if |target| > 0 {
        assert target[0] < n;
      }
    }
    assert r.value == target by {
      forall i | 0 <= i < |target|
        ensures r.value[i] == target[i]
      {
        assert draw(i) == target[i];
      }
    }
  }

  /** `X[idx, :]`: the rows of X that the indices name, in draw order. */
  function Gather<T>(rows: seq<seq<T>>, idx: seq<nat>): (samples: seq<seq<T>>)
    requires forall i :: 0 <= i < |idx| ==> idx[i] < |rows|
    ensures |samples| == |idx|
    ensures forall i :: 0 <= i < |idx| ==> samples[i] == rows[idx[i]]
  {
    seq(|idx|, i requires 0 <= i < |idx| => rows[idx[i]])
  }
}

=== FILE: sweep.dfy ===
/** The advisory sweep over candidate cluster counts: each count in
    `range(2, 33, 2)` is fitted on the training samples and its silhouette
    score is reported. The fitting and scoring belong to the clustering
    library and are a parameter here. */
module Sweep {
  import opened Arith

  /** How many values `range(start, stop, step)` holds: ceil((stop - start) / step), or none. */
  function RangeLength(start: int, stop: int, step: int): nat
    requires step > 0
  {
    if start >= stop then 0 else (stop - start + step - 1) / step
  }

  /** Python's `range(start, stop, step)` for a positive step: the values
      start + i * step, for as many i as stay below stop. */
  function Range(start: int, stop: int, step: int): (r: seq<int>)
    requires step > 0
    ensures r != [] <==> start < stop
    ensures r != [] ==> r[0] == start && stop <= r[|r| - 1] + step
    ensures forall i :: 0 <= i < |r| ==> r[i] < stop
    ensures forall i :: 0 < i < |r| ==> r[i] == r[i - 1] + step
  {
    var n := RangeLength(start, stop, step);
    var r := seq(n, i requires 0 <= i => start + i * step);
    assert start < stop ==> n >= 1 && (n - 1) * step < stop - start <= (n - 1) * step + step by {
      if start < stop {
        CeilBounds(stop - start, step);
      }
    }
    assert forall i :: 0 <= i < n ==> r[i] < stop by {
      forall i | 0 <= i < n
        ensures r[i] < stop
      {
        MulLeq(i, n - 1, step);
      }
    }
    assert forall i :: 0 < i < n ==> r[i] == r[i - 1] + step by {
      forall i | 0 < i < n
        ensures r[i] == r[i - 1] + step
      {
        ShiftRow(i, step, 0);
      }
    }
    r
  }

  /** ceil(d / step) steps reach d; one fewer stays below it. */
  lemma CeilBounds(d: nat, step: nat)
    requires 0 < d && 0 < step
    ensures var n := (d + step - 1) / step;
      n >= 1 && (n - 1) * step < d <= (n - 1) * step + step
  {
    DivShift(d - 1, step);
  }

  /** Python's own recurrence: a range is empty once start reaches stop, and
      otherwise is start followed by the range from start + step. */
  lemma RangeUnfold(start: int, stop: int, step: int)
    requires step > 0
    ensures Range(start, stop, step)
         == if start >= stop then [] else [start] + Range(start + step, stop, step)
  {
    if start < stop {
      var r, rest := Range(start, stop, step), Range(start + step, stop, step);
      var d := stop - start;
      DivShift(d - 1, step);
      if start + step >= stop {
        DivModUnique(d - 1, step, 0, d - 1);
      }
      assert |r| == |rest| + 1;
      forall i | 0 < i < |r|
        ensures r[i] == rest[i - 1]
      {
        ShiftRow(i, step, 0);
      }
      assert r == [start] + rest;
    }
  }

  /** The counts the sweep tries. */
  const CANDIDATES: seq<int> := Range(2, 33, 2)

  /** The sweep tries exactly sixteen counts: the even numbers 2, 4, ..., 32, increasing. */
  lemma CandidatesAreEvenTwoToThirtyTwo()
    ensures |CANDIDATES| == 16
    ensures forall i :: 0 <= i < 16 ==> CANDIDATES[i] == 2 + 2 * i
    ensures forall i, j :: 0 <= i < j < 16 ==> CANDIDATES[i] < CANDIDATES[j]
    ensures CANDIDATES[0] == 2 && CANDIDATES[15] == 32
  {
    assert RangeLength(2, 33, 2) == 16;
  }

  /** The loop of `run_Kmeans` over the candidates: one report line per count,
      holding the count and the silhouette score of a fit with that many clusters. */
  method RunSweep<S>(samples: S, silhouette: (S, int) -> real) returns (report: seq<(int, real)>)
    ensures |report| == 16
    ensures forall i :: 0 <= i < 16 ==> report[i] == (2 + 2 * i, silhouette(samples, 2 + 2 * i))
  {
    CandidatesAreEvenTwoToThirtyTwo();
    report := [];
    for j := 0 to |CANDIDATES|
      invariant |report| == j
      invariant forall i :: 0 <= i < j ==> report[i] == (CANDIDATES[i], silhouette(samples, CANDIDATES[i]))
    {
      var nClusters := CANDIDATES[j];
      var score := silhouette(samples, nClusters);
      report := report + [(nClusters, score)];
    }
  }
}
